=== FILE: README.md ===
# QuickLang for PS Vita — the favorites and navigation logic, in Dafny

QuickLang is a small on-device menu for picking the console's system language. It shows
a fixed catalog of languages in a scrollable ten-row list. The user moves with the d-pad,
jumps between favorite languages with LEFT/RIGHT, and toggles a favorite with TRIANGLE.
The favorites persist in a tiny JSON-like config file. CROSS applies the selected
language through the system registry and then offers a reboot.

This project models the pure logic of `main.c` and proves properties of it:

- `Search` — `find_index_by_id`, the linear search over the catalog. The same search
  stands for the favorites lookup inside `toggle_favorite` and for `strchr`.
- `Favorites` — `toggle_favorite` on the bounded (`MAX_LANGS` = 32) favorites list.
- `CText` — what the config code uses from the C library: NUL-terminated buffers,
  `strstr`, and the `%d` conversion of `snprintf` and `sscanf`.
- `Config` — the text `save_config` writes and the substring-scanning parser of
  `load_config`. It includes the save-then-load round trip.
- `Navigator` — the `(sel, offset)` view and the DOWN/UP/RIGHT/LEFT handlers. The
  favorite jumps follow stored order.
- `Frame` — edge detection on the sampled buttons, the fixed handler order of one frame,
  and the main loop over a sequence of samples.

The catalog is an abstract `seq<int>` of language ids, because the concrete
`SCE_SYSTEM_PARAM_LANG_*` values come from the platform SDK. Properties that need distinct
ids say so with `NoDup(catalog)`. Without that, a lookup of the selected row's id can
land on an earlier duplicate (`Search.EntryFoundAtOrBefore`).

Behaviour of the code that the model keeps:

- A failed load (no file, empty read, no `"favorites":` key, no `[` after it) leaves the
  favorites as they were; it does not empty them. At start-up they are empty anyway
  (`Frame.Init`). Once the key and `[` are found, the list is reset, even if no id can be
  read.
- The loaded list is not checked for duplicates (`Config.LoadKeepsDuplicates`), so
  "no duplicates" holds only for lists built by toggling (`Favorites.ToggleKeepsNoDup`).
- The parser skips segments where `%d` fails and does not stop at `]`
  (`Config.ParseSkipsUnreadableSegment`, `Config.ParseReadsPastBracket`).
- In the LEFT scan, a favorite missing from the catalog has index -1. That counts as
  "below the selection", so the scan stops there with -1, which reads as a miss. If the
  last stored favorite is such an id, LEFT does nothing (`Navigator.JumpPrevStuckOnMissingLast`).
- RIGHT only scrolls the window forward and LEFT only backward, so a wrap can leave the
  selection off screen (`Navigator.JumpNextCanLeaveWindow`, `Navigator.JumpPrevCanLeaveWindow`).

## Model

| member | source | states |
|---|---|---|
| `Search.FirstIndex` | main.c:99-102 | the result is -1 exactly when the id is absent; otherwise it is a position holding the id with no earlier match |
| `Search.EntryFoundAtOrBefore` | main.c:138 | looking up the selected row's id yields a valid index no later than the selection |
| `Search.DistinctEntryFoundAt` | main.c:138 | with distinct catalog ids, looking up the selected row's id yields the selection itself |
| `Favorites.Toggle` | main.c:104-113 | a present id loses its first occurrence and nothing else moves; an absent id is appended when there is room; a full list is unchanged; the list stays within 32 entries |
| `Favorites.ToggleRemovesOneCopy` | main.c:106-110 | removing takes exactly one copy of the id out and shortens the list by one |
| `Favorites.ToggleKeepsNoDup` | main.c:104-113 | toggling never creates a duplicate in a duplicate-free list |
| `Favorites.ToggleSelfInverse` | main.c:104-113 | toggling an absent id twice, with room, restores the list |
| `Favorites.ToggleTwiceMovesToEnd` | main.c:104-113 | toggling a present id twice moves it to the end of the list rather than restoring the order |
| `Favorites.ToggleDrawsFrom` | main.c:104-113 | every id after a toggle was already a favorite or is the toggled id |
| `CText.CString` | main.c:58 | C string functions see the buffer up to the first NUL and no further |
| `CText.FindSubstring` | main.c:60 | `strstr` yields the first position where the key matches, or -1 exactly when it matches nowhere |
| `CText.LeadingSpaces` | main.c:67 | `%d` first skips exactly the leading whitespace characters |
| `CText.DigitRun` | main.c:67 | `%d` reads the longest run of digits |
| `CText.ScanDigits` | main.c:67 | the digit conversion fails exactly when no digit comes first |
| `CText.ScanInt` | main.c:67 | `sscanf("%d")` fails on empty text and on text whose first character is not whitespace, a sign or a digit; it fails exactly when, after the leading whitespace and an optional `+` or `-`, no digit follows |
| `CText.ScanSpacedNumeral` | main.c:67 | on any input of whitespace, an optional `+` or `-`, a digit run and text that does not continue it, `%d` reads the signed value of the digits |
| `CText.Numeral` | main.c:82 | `%d` prints a non-empty run of digits with no leading zero |
| `CText.FormatInt` | main.c:82 | `%d` prints a minus sign first exactly for negative values, then a non-empty digit run with no leading zero, and only signs and digits |
| `CText.ScanFormatted` | main.c:67 | reading back a printed id yields that id when the next character is not a digit |
| `CText.NumeralValueOfNumeral` | main.c:82 | the printed numeral denotes the printed value |
| `CText.FormatInt32Length` | main.c:82 | a 32-bit id prints in at most eleven characters |
| `Config.Entries` | main.c:80-83 | the id list contains only commas, signs and digits, is empty exactly for no ids, and is a single id's `%d` text for one id (with `EntriesSnoc` this fixes the whole text) |
| `Config.EntriesSnoc` | main.c:80-83 | one more id extends the list text by a comma and that id's `%d` text, so the ids appear in stored order |
| `Config.EntriesLength` | main.c:80-83 | each 32-bit id adds at most twelve characters |
| `Config.SaveConfig` | main.c:79-84 | the text starts with the header up to `[`, ends with `]`, `}` and newlines, holds exactly the id list between them, and contains no NUL |
| `Config.SavedTextFits` | main.c:55 | the saved text of any list the array can hold fits the reader's 1023-byte read |
| `Config.ParseEntries` | main.c:65-71 | parsing only extends the list, never past 32 entries, and a full list stops it |
| `Config.ParseSegment` | main.c:66-70 | a comma-free segment is converted or skipped, and parsing resumes after its comma |
| `Config.ParseLastSegment` | main.c:66-70 | without a further comma the loop ends after one conversion |
| `Config.EntryThenComma` | main.c:66-70 | a printed id, then text that cannot extend its digits, then a comma: the id is read and parsing resumes after the comma |
| `Config.ParseSkipsUnreadableSegment` | main.c:67-69 | a segment where `%d` fails adds nothing and does not end the parse |
| `Config.ParseFavorites` | main.c:59-71 | no key or no `[` after the key is a failure; otherwise the result fits the array |
| `Config.ParseAfterKey` | main.c:60-64 | whatever text comes before it, the ids are read from just after the first `[` that follows the first occurrence of the key; an earlier `[` plays no part |
| `Config.ParseReadsPastBracket` | main.c:60-71 | an id after `]` and a later comma is still read |
| `Config.Visible` | main.c:55-58 | the reader sees a NUL-free prefix of the file of at most 1023 bytes, cut short only by a NUL; a short NUL-free file is seen whole |
| `Config.LoadConfig` | main.c:52-72 | every failure path keeps the previous favorites; on a non-empty file whose visible text parses, the result is exactly the parsed list, which fits the array |
| `Config.EntriesParseBack` | main.c:66-83 | the written id list followed by the trailer parses back to the same ids in order |
| `Config.ParseAfterHeader` | main.c:59-64 | in saved text the parser finds the key and `[`, and starts right after the header |
| `Config.SavedTextParses` | main.c:59-84 | the parser reads the writer's text back as exactly the list it was written from |
| `Config.LoadWholeText` | main.c:54-58 | a non-empty NUL-free file within 1023 bytes is parsed whole |
| `Config.SaveLoadRoundTrip` | main.c:52-84 | loading the saved text of any list of at most 32 ids gives back the same list, empty list included |
| `Config.LoadKeepsDuplicates` | main.c:65-67 | a saved list with a repeated id loads with both copies |
| `Navigator.MoveDown` | main.c:134 | the selection moves down one row exactly when not on the last; the window scrolls down by one exactly when the new selection is ten or more rows below the old offset, wherever the selection was; row range and window invariant are kept |
| `Navigator.MoveUp` | main.c:135 | the selection moves up one row exactly when not on the first; the window scrolls up by one exactly when the new selection is above the old offset, wherever the selection was; row range and window invariant are kept |
| `Navigator.NextTarget` | main.c:140-144 | the forward scan yields the stored position of the first favorite lying beyond the current row, or nothing exactly when none does |
| `Navigator.PrevTarget` | main.c:152-156 | the backward scan yields the stored position of the last favorite lying before the current row, where index -1 also counts, or nothing exactly when none does |
| `Navigator.Current` | main.c:138 | the recomputed current index is at most the selection, and equal to it for distinct ids |
| `Navigator.JumpNext` | main.c:136-147 | no favorites means no change; the selection lands on the forward hit, else on the first stored favorite if it is in the catalog; it is a valid row holding a favorite; when a target is found the offset becomes `sel - 9` if the selection is ten or more rows below the old offset and stays otherwise; with no target nothing changes |
| `Navigator.JumpPrev` | main.c:149-159 | no favorites means no change; the selection lands on a valid hit, else on the last stored favorite if it is in the catalog; it is a valid row holding a favorite; when a target is found the offset becomes `sel` if the selection is above the old offset and stays otherwise; with no target nothing changes |
| `Navigator.JumpNextFindsFirstAhead` | main.c:136-147 | with distinct ids and a favorite beyond the selection, RIGHT moves forward to the first such favorite in stored order |
| `Navigator.JumpNextWrapsToFirstStored` | main.c:145-146 | with distinct ids and no favorite beyond the selection, RIGHT selects the first stored favorite |
| `Navigator.JumpNextKeepsWindowBottom` | main.c:146 | from a visible selection, RIGHT keeps the offset non-negative and the selection above the window's bottom |
| `Navigator.JumpPrevKeepsWindowTop` | main.c:158 | from a visible selection, LEFT keeps the selection at or below the window's top |
| `Navigator.JumpPrevFindsLastBehind` | main.c:149-159 | with distinct ids, LEFT selects the last stored favorite before the selection when no later-stored favorite is missing from the catalog |
| `Navigator.JumpPrevStuckOnMissingLast` | main.c:153-158 | a last stored favorite missing from the catalog makes LEFT a no-op |
| `Navigator.JumpNextFollowsStoredOrder` | main.c:141-146 | favorites stored as rows 5, 2, 9: RIGHT from row 2 selects row 5 |
| `Navigator.JumpNextWrapsInStoredOrder` | main.c:141-146 | favorites stored as rows 5, 2, 9: RIGHT from row 9 wraps to row 5, not row 2 |
| `Navigator.JumpNextCanLeaveWindow` | main.c:145-146 | a backward wrap of RIGHT leaves the selection above the visible window |
| `Navigator.JumpPrevCanLeaveWindow` | main.c:157-158 | a forward wrap of LEFT leaves the selection below the visible window |
| `Frame.NewlyPressed` | main.c:131 | a button counts only when it is down now and was up in the previous sample |
| `Frame.Init` | main.c:122-124 | the program starts on the first row at the top of the window with a loaded list within 32 entries, empty when no file opens |
| `Frame.InitResumes` | main.c:124 | started on a config file that `save_config` wrote, the program resumes with exactly the saved favorites |
| `Frame.Navigate` | main.c:134-160 | the d-pad handlers keep the selection a valid row; without RIGHT/LEFT they keep it visible; without d-pad input nothing moves |
| `Frame.NavigateComposesHandlers` | main.c:134-160 | several directions in one frame run in the order DOWN, UP, RIGHT, LEFT, each on the view the earlier one left |
| `Frame.DownThenUpScrolls` | main.c:134-135 | DOWN and UP together from the window's bottom row keep the row but scroll the window by one, which UP before DOWN would not |
| `Frame.Step` | main.c:131-184 | TRIANGLE toggles the row selected after the moves and writes exactly the new list; without TRIANGLE the list and the file are untouched; CROSS applies that row's id; CIRCLE ends the loop; size bound and duplicate-freedom are kept |
| `Frame.StepSavesWhatItKeeps` | main.c:180-182 | whenever TRIANGLE writes the config, loading that text yields the favorites the frame ends with |
| `Frame.Run` | main.c:129-184 | over any sequence of samples the selection stays a valid row, the list stays within 32 entries and stays duplicate-free if it started so |
| `Frame.RepeatedTapTogglesTwice` | main.c:129-182 | TRIANGLE pressed, released and pressed again toggles twice: after a frame without CIRCLE the loop handles the next sample |
| `Frame.HeldTriangleTogglesOnce` | main.c:131-182 | holding TRIANGLE across two samples toggles once |
| `Frame.RunStopsOnCircle` | main.c:129-184 | a frame with CIRCLE newly pressed still runs its handlers and is the last: later samples are not looked at |

## Left out

- Drawing with vita2d and loading the font (main.c:118-120, 167-171, 186-201): screen output with no decision logic.
- Input sampling with `sceCtrlPeekBufferPositive`: each sample is a set of `Frame.Button`s given as input. The SDK's button bit values are not visible, so a set stands in for the bit mask.
- The reboot confirmation loop after CROSS (main.c:172-177) and its reset request: platform I/O. Confirming resets the console, so TRIANGLE and CIRCLE never run in that frame; `Frame.Step` follows the path where the prompt is cancelled with CIRCLE and the frame goes on to TRIANGLE and CIRCLE. That loop also overwrites `old`; `Frame.Run` instead treats each frame's own sample as the previous sample for the next frame.
- Registry and system calls (`get_current_lang`, `sceRegMgrSetKeyInt`, `scePowerRequestColdReset`, `sceSysmoduleLoadModule`, `sceKernelExitProcess`): their semantics are not visible. CROSS is modelled only as the id it would hand to the registry (`Outcome.apply`).
- File I/O (`sceIoOpen`, `sceIoRead`, `sceIoWrite`, `sceIoMkdir`): `Config.LoadConfig` receives the file's contents, or `None` when open or read fails. A read returns the first 1023 bytes. `Config.SaveConfig` returns the text instead of writing it, and write failures are not modelled.
- Bytes are modelled as `char`s; the file content is not decoded.
- `CText.ScanInt`: it yields the exact value of any numeral; the C `int` overflow of `sscanf` on out-of-range numerals is undefined behaviour and is not modelled. The round trip is stated for ids in the 32-bit range.
- `Config.SaveConfig`: `snprintf` truncation is not modelled. `Config.SavedTextFits` shows it cannot happen for at most 32 ids of 32-bit range.
- The unused `locale` global and `current` variable, the language display names and the English/German labels.

=== FILE: config.dfy ===
/** The config file `config.json`: the text `save_config` writes for the favorites
    list and the substring-scanning parser `load_config` reads it back with.
    File access itself is outside the model: the writer produces the file's
    contents and the reader is handed them (or `None` when the file cannot be
    opened or read). */
module Config {
  import opened Options
  import opened Search
  import opened CText
  import opened Favorites

  /** The key the parser looks for. */
  const Key: seq<char> := "\"favorites\":"

  /** Everything the writer emits before the first id. */
  const Header: seq<char> := "{\n  \"favorites\": ["

  /** Everything the writer emits after the last id. */
  const Trailer: seq<char> := "]\n}\n"

  /** The reader's buffer holds 1024 bytes and keeps one for the terminating NUL. */
  const ReadLimit: nat := 1023

  /** Characters the writer can emit between the brackets. */
  predicate ListChar(c: char) {
    c == ',' || c == '-' || IsDigit(c)
  }

  /** The ids printed with `%d`, separated by commas and in list order. */
  function Entries(favs: seq<int>): (s: seq<char>)
    ensures forall i :: 0 <= i < |s| ==> ListChar(s[i])
    ensures |favs| == 0 <==> |s| == 0
    ensures |favs| == 1 ==> s == FormatInt(favs[0])
  {
    if |favs| == 0 then []
    else if |favs| == 1 then FormatInt(favs[0])
    else FormatInt(favs[0]) + [','] + Entries(favs[1..])
  }

  /** Appending one id extends the printed list by a comma and that id: the list
      is written one entry at a time, in order. */
  lemma {:induction false} EntriesSnoc(favs: seq<int>, y: int)
    requires |favs| > 0
    ensures Entries(favs + [y]) == Entries(favs) + [','] + FormatInt(y)
  {
    var g := favs + [y];
    assert g[0] == favs[0];
    if |favs| == 1 {
      assert g[1..] == [y];
    } else {
      assert g[1..] == favs[1..] + [y];
      EntriesSnoc(favs[1..], y);
      var e := FormatInt(favs[0]) + [','];
      ConcatAssoc(e, Entries(favs[1..]), [','] + FormatInt(y));
      ConcatAssoc(e + Entries(favs[1..]), [','], FormatInt(y));
      ConcatAssoc(Entries(favs[1..]), [','], FormatInt(y));
    }
  }

  /** The full text `save_config` writes: `{`, the indented key, the bracketed list,
      `}`, each line ending in a newline. */
  function SaveConfig(favs: seq<int>): (text: seq<char>)
    ensures |Header| + |Trailer| <= |text|
    ensures text[..|Header|] == Header
    ensures text[|text| - |Trailer|..] == Trailer
    ensures '\0' !in text
    ensures text[|Header|..|text| - |Trailer|] == Entries(favs)
  {
    var e := Entries(favs);
    FramedParts(Header, e, Trailer);
    NotInFramed('\0', Header, e, Trailer);
    Header + e + Trailer
  }

  /** Appends the value of a successful `%d` conversion; a failed one adds nothing. */
  function Append(acc: seq<int>, v: Option<int>): (r: seq<int>)
    ensures v.None? ==> r == acc
    ensures v.Some? ==> r == acc + [v.value]
  {
    match v
    case None => acc
    case Some(x) => acc + [x]
  }

  /** The loop of `load_config`: while there is room, try `%d` at the current
      position (keeping the value only when the conversion succeeds), then move
      past the next comma, stopping when there is none. It neither stops at `]`
      nor drops duplicates. */
  function ParseEntries(p: seq<char>, acc: seq<int>): (r: seq<int>)
    ensures acc <= r
    ensures Bounded(acc) ==> Bounded(r)
    ensures !Bounded(acc) ==> r == acc
    decreases |p|
  {
    if |acc| >= MaxFavorites then acc
    else
      var acc' := Append(acc, ScanInt(p));
      var c := FirstIndex(p, ',');
      assert acc <= acc';
      if c < 0 then acc' else ParseEntries(p[c + 1..], acc')
  }

  /** The parse of the text in the buffer: `None` when the key is missing or no
      `[` follows it, otherwise the ids read after the `[`. */
  function ParseFavorites(text: seq<char>): (r: Option<seq<int>>)
    ensures FindSubstring(text, Key) < 0 ==> r.None?
    ensures 0 <= FindSubstring(text, Key) ==>
              (r.None? <==> '[' !in text[FindSubstring(text, Key)..])
    ensures r.Some? ==> Bounded(r.value)
  {
    var k := FindSubstring(text, Key);
    if k < 0 then None
    else
      var b := FirstIndex(text[k..], '[');
      if b < 0 then None
      else Some(ParseEntries(text[k + b + 1..], []))
  }

  /** The text the reader sees: the first `ReadLimit` bytes of the file, cut at
      the first NUL among them. */
  function Visible(data: seq<char>): (text: seq<char>)
    ensures |text| <= ReadLimit
    ensures text <= data
    ensures '\0' !in text
    ensures |text| < ReadLimit && |text| < |data| ==> data[|text|] == '\0'
    ensures |data| <= ReadLimit && '\0' !in data ==> text == data
  {
    CString(if |data| <= ReadLimit then data else data[..ReadLimit])
  }

  /** `load_config`: on an unopenable or unreadable file, an empty read, a missing
      key or a missing `[`, the previous favorites stay as they were; otherwise they
      are replaced by the parsed list, which fits the array. */
  function LoadConfig(file: Option<seq<char>>, prev: seq<int>): (r: seq<int>)
    ensures file.None? ==> r == prev
    ensures file.Some? && |file.value| == 0 ==> r == prev
    ensures file.Some? && ParseFavorites(Visible(file.value)).None? ==> r == prev
    ensures r == prev || Bounded(r)
    ensures file.Some? && |file.value| > 0 && ParseFavorites(Visible(file.value)).Some? ==>
              r == ParseFavorites(Visible(file.value)).value
  {
    match file
    case None => prev
    case Some(data) =>
      if |data| == 0 then prev
      else
        match ParseFavorites(Visible(data))
        case None => prev
        case Some(favs) => favs
  }

  /** A segment without a comma is converted (or skipped when `%d` fails there),
      and the parse resumes right after the comma that ends it. */
  lemma ParseSegment(seg: seq<char>, rest: seq<char>, acc: seq<int>)
    requires ',' !in seg
    requires |acc| < MaxFavorites
    ensures ParseEntries(seg + [','] + rest, acc) == ParseEntries(rest, Append(acc, ScanInt(seg)))
  {
    var tail := [','] + rest;
    var p := seg + tail;
    assert p == seg + [','] + rest;
    ScanPrefix(seg, tail);
    assert FirstIndex(p, ',') == |seg| by {
      assert p[..|seg|] == seg;
      assert p[|seg|] == ',';
    }
    assert p[|seg| + 1..] == rest;
  }

  /** The last segment: without a comma the loop ends after one conversion. */
  lemma ParseLastSegment(seg: seq<char>, acc: seq<int>)
    requires ',' !in seg
    requires |acc| < MaxFavorites
    ensures ParseEntries(seg, acc) == Append(acc, ScanInt(seg))
  {
  }

  /** `%d` stops at a comma, so the text after a segment does not change what it reads. */
  lemma ScanPrefix(seg: seq<char>, rest: seq<char>)
    requires |rest| > 0 && rest[0] == ','
    ensures ScanInt(seg + rest) == ScanInt(seg)
  {
    var ls := LeadingSpaces(seg);
    LeadingSpacesPrefix(seg, rest);
    assert (seg + rest)[ls..] == seg[ls..] + rest;
    ScanSignedPrefix(seg[ls..], rest);
  }

  lemma ScanSignedPrefix(t: seq<char>, rest: seq<char>)
    requires |rest| > 0 && rest[0] == ','
    ensures ScanSigned(t + rest) == ScanSigned(t)
  {
    if |t| > 0 {
      assert (t + rest)[0] == t[0];
      assert (t + rest)[1..] == t[1..] + rest;
      ScanDigitsPrefix(t[1..], rest);
    }
    ScanDigitsPrefix(t, rest);
  }

  lemma ScanDigitsPrefix(u: seq<char>, rest: seq<char>)
    requires |rest| > 0 && rest[0] == ','
    ensures ScanDigits(u + rest) == ScanDigits(u)
  {
    DigitRunPrefix(u, rest);
    var k := DigitRun(u);
    assert (u + rest)[..k] == u[..k];
  }

  lemma {:induction false} LeadingSpacesPrefix(seg: seq<char>, rest: seq<char>)
    requires |rest| > 0 && rest[0] == ','
    ensures LeadingSpaces(seg + rest) == LeadingSpaces(seg)
  {
    if |seg| > 0 {
      assert (seg + rest)[1..] == seg[1..] + rest;
      LeadingSpacesPrefix(seg[1..], rest);
    }
  }

  lemma {:induction false} DigitRunPrefix(seg: seq<char>, rest: seq<char>)
    requires |rest| > 0 && rest[0] == ','
    ensures DigitRun(seg + rest) == DigitRun(seg)
  {
    if |seg| > 0 {
      assert (seg + rest)[1..] == seg[1..] + rest;
      DigitRunPrefix(seg[1..], rest);
    }
  }

  /** Text that can follow the last id and end the list: it has no comma, does
      not continue a numeral, and `%d` finds nothing in it. */
  predicate EndsList(t: seq<char>) {
    ',' !in t && StopsDigits(t) && ScanInt(t) == None
  }

  /** The writer's trailer ends the list: `%d` fails on `]` and there is no comma. */
  lemma TrailerEndsList()
    ensures EndsList(Trailer)
  {
    assert ScanInt(Trailer) == None;
  }

  /** An id printed by `%d` contains no comma. */
  lemma FormatIntHasNoComma(x: int)
    ensures ',' !in FormatInt(x)
  {
  }

  /** Text that ends the list yields nothing more. */
  lemma EndParsesEmpty(t: seq<char>, acc: seq<int>)
    requires EndsList(t)
    ensures ParseEntries(t, acc) == acc
  {
    if |acc| < MaxFavorites {
      ParseLastSegment(t, acc);
    }
  }

  /** The last id is read and the loop ends. */
  lemma LastEntryParses(x: int, t: seq<char>, acc: seq<int>)
    requires EndsList(t)
    requires |acc| < MaxFavorites
    ensures ParseEntries(FormatInt(x) + t, acc) == acc + [x]
  {
    ScanFormatted(x, t);
    FormatIntHasNoComma(x);
    ParseLastSegment(FormatInt(x) + t, acc);
  }

  /** An id followed by a comma is read and the parse resumes after the comma. */
  lemma EntryParses(x: int, rest: seq<char>, acc: seq<int>)
    requires |acc| < MaxFavorites
    ensures ParseEntries(FormatInt(x) + [','] + rest, acc) == ParseEntries(rest, acc + [x])
  {
    ScanFormatted(x, []);
    EmptyRight(FormatInt(x));
    FormatIntHasNoComma(x);
    ParseSegment(FormatInt(x), rest, acc);
  }

  /** The first id of a longer list is read and the parse resumes at the second. */
  lemma FirstEntryParses(favs: seq<int>, t: seq<char>, acc: seq<int>)
    requires |favs| > 1
    requires |acc| < MaxFavorites
    ensures ParseEntries(Entries(favs) + t, acc) == ParseEntries(Entries(favs[1..]) + t, acc + [favs[0]])
  {
    EntriesThen(favs, t);
    EntryParses(favs[0], Entries(favs[1..]) + t, acc);
  }

  /** The list text of two or more ids is the first id, a comma, and the rest. */
  lemma EntriesThen(favs: seq<int>, t: seq<char>)
    requires |favs| > 1
    ensures Entries(favs) + t == FormatInt(favs[0]) + [','] + (Entries(favs[1..]) + t)
  {
    var a, e := FormatInt(favs[0]) + [','], Entries(favs[1..]);
    assert Entries(favs) == a + e;
    ConcatAssoc(a, e, t);
  }

  lemma ConsSplit(favs: seq<int>, acc: seq<int>)
    requires |favs| > 0
    ensures acc + [favs[0]] + favs[1..] == acc + favs
  {
    assert [favs[0]] + favs[1..] == favs;
  }

  /** The list text followed by text that ends the list parses back to the list,
      appended to whatever was read before it, provided everything fits. */
  lemma {:induction false} EntriesParseBack(favs: seq<int>, t: seq<char>, acc: seq<int>)
    requires EndsList(t)
    requires |acc| + |favs| <= MaxFavorites
    ensures ParseEntries(Entries(favs) + t, acc) == acc + favs
    decreases |favs|
  {
    if favs == [] {
      assert Entries(favs) + t == t;
      EndParsesEmpty(t, acc);
      assert acc + favs == acc;
    } else if |favs| == 1 {
      LastEntryParses(favs[0], t, acc);
      assert favs == [favs[0]];
    } else {
      FirstEntryParses(favs, t, acc);
      EntriesParseBack(favs[1..], t, acc + [favs[0]]);
      ConsSplit(favs, acc);
    }
  }

  /** Each id takes at most eleven characters and one separating comma. */
  lemma {:induction false} EntriesLength(favs: seq<int>)
    requires AllInt32(favs)
    ensures |Entries(favs)| <= 12 * |favs|
    decreases |favs|
  {
    if |favs| > 0 {
      FormatInt32Length(favs[0]);
      EntriesLength(favs[1..]);
    }
  }

  /** The written text always fits the reader's buffer, so nothing is cut off. */
  lemma SavedTextFits(favs: seq<int>)
    requires Bounded(favs)
    requires AllInt32(favs)
    ensures 0 < |SaveConfig(favs)| <= ReadLimit
  {
    EntriesLength(favs);
  }

  /** In text that starts with the header, the first occurrence of the key is
      the one at position 4. */
  lemma KeyFoundInHeader(rest: seq<char>)
    ensures FindSubstring(Header + rest, Key) == 4
  {
    var text := Header + rest;
    assert MatchAt(text, Key, 4) by {
      assert Header[4..16] == Key;
      MatchInPrefix(Header, rest, Key, 4);
    }
    forall i | 0 <= i < 4
      ensures !MatchAt(text, Key, i)
    {
      assert text[i] == Header[i] && Header[i] != '"';
      assert Key[0] == '"';
    }
  }

  /** After the key, the first `[` is the header's own, 13 characters on. */
  lemma BracketFoundInHeader(rest: seq<char>)
    ensures FirstIndex((Header + rest)[4..], '[') == 13
  {
    var t := (Header + rest)[4..];
    assert t[13] == '[';
  }

  /** The parser finds the key the writer put at position 4 and the `[` after it,
      and starts reading right after the header. */
  lemma ParseAfterHeader(rest: seq<char>)
    ensures ParseFavorites(Header + rest) == Some(ParseEntries(rest, []))
  {
    KeyFoundInHeader(rest);
    BracketFoundInHeader(rest);
    assert (Header + rest)[18..] == rest;
  }

  /** Save-then-load round trip: any list the array can hold is read back as the
      same ids in the same order, duplicates included, whatever the favorites
      were before. */
  lemma SaveLoadRoundTrip(favs: seq<int>, prev: seq<int>)
    requires Bounded(favs)
    requires AllInt32(favs)
    ensures LoadConfig(Some(SaveConfig(favs)), prev) == favs
  {
    SavedTextFits(favs);
    SavedTextParses(favs);
    LoadWholeText(SaveConfig(favs), prev);
  }

  /** The parser reads the writer's text back as the list it was written from. */
  lemma SavedTextParses(favs: seq<int>)
    requires Bounded(favs)
    ensures ParseFavorites(SaveConfig(favs)) == Some(favs)
  {
    assert SaveConfig(favs) == Header + (Entries(favs) + Trailer);
    ParseAfterHeader(Entries(favs) + Trailer);
    TrailerEndsList();
    EntriesParseBack(favs, Trailer, []);
    EmptyLeft(favs);
  }

  /** A file short enough for the buffer and free of NUL bytes is seen whole. */
  lemma LoadWholeText(text: seq<char>, prev: seq<int>)
    requires 0 < |text| <= ReadLimit && '\0' !in text
    ensures ParseFavorites(text).Some? ==> LoadConfig(Some(text), prev) == ParseFavorites(text).value
  {
    assert Visible(text) == text;
  }

  /** The parser does not drop duplicates: a list holding the same id twice is
      read back with both copies. */
  lemma LoadKeepsDuplicates(x: int, prev: seq<int>)
    requires IsInt32(x)
    ensures LoadConfig(Some(SaveConfig([x, x])), prev) == [x, x]
  {
    SaveLoadRoundTrip([x, x], prev);
  }

  /** A key that first occurs at the end of `pre + Key` is still the first
      occurrence whatever text follows it. */
  lemma KeyFoundAfter(pre: seq<char>, tail: seq<char>)
    requires FindSubstring(pre + Key, Key) == |pre|
    ensures FindSubstring(pre + Key + tail, Key) == |pre|
  {
    var head := pre + Key;
    forall i | 0 <= i <= |pre|
      ensures MatchAt(head + tail, Key, i) <==> MatchAt(head, Key, i)
    {
      MatchInPrefix(head, tail, Key, i);
    }
  }

  /** A match that ends inside `head` is unaffected by what follows `head`. */
  lemma MatchInPrefix(head: seq<char>, tail: seq<char>, pat: seq<char>, i: nat)
    requires i + |pat| <= |head|
    ensures MatchAt(head + tail, pat, i) <==> MatchAt(head, pat, i)
  {
    assert (head + tail)[i..i + |pat|] == head[i..i + |pat|];
  }

  /** After the key, the first `[` is the one that ends a `[`-free stretch. */
  lemma BracketAfterKey(mid: seq<char>, rest: seq<char>)
    requires '[' !in mid
    ensures FirstIndex(Key + mid + ['['] + rest, '[') == |Key| + |mid|
  {
    var t := Key + mid + ['['] + rest;
    var p := |Key| + |mid|;
    assert t[p] == '[';
    assert '[' !in Key;
    assert t[..p] == Key + mid;
  }

  /** The parse starts right after the first `[` that follows the first
      occurrence of the key; a `[` earlier in the text plays no part. */
  lemma ParseAfterKey(pre: seq<char>, mid: seq<char>, rest: seq<char>)
    requires FindSubstring(pre + Key, Key) == |pre|
    requires '[' !in mid
    ensures ParseFavorites(pre + Key + mid + ['['] + rest) == Some(ParseEntries(rest, []))
  {
    TextAroundBracket(pre, Key, mid, rest);
    KeyFoundAfter(pre, mid + ['['] + rest);
    BracketAfterKey(mid, rest);
  }

  /** How the parser's slices cut text laid out as `p + k + m + "[" + r`. */
  lemma TextAroundBracket(p: seq<char>, k: seq<char>, m: seq<char>, r: seq<char>)
    ensures p + k + m + ['['] + r == (p + k) + (m + ['['] + r)
    ensures (p + k + m + ['['] + r)[|p|..] == k + m + ['['] + r
    ensures (p + k + m + ['['] + r)[|p| + |k| + |m| + 1..] == r
  {
  }

  /** In text that starts with the key and `[`, the parse starts right after them. */
  lemma ParseAfterLeadingKey(rest: seq<char>)
    ensures ParseFavorites(Key + ['['] + rest) == Some(ParseEntries(rest, []))
  {
    KeyFoundAtStart();
    ParseAfterKey([], [], rest);
    EmptyParts(Key, ['['] + rest);
    ConcatAssoc(Key, ['['], rest);
  }

  /** In text that starts with the key, it is found at the start. */
  lemma KeyFoundAtStart()
    ensures FindSubstring([] + Key, Key) == 0
  {
    EmptyLeft(Key);
    WholeSlice(Key);
    assert MatchAt(Key, Key, 0);
  }

  lemma WholeSlice(a: seq<char>)
    ensures a[0..|a|] == a
  {
  }

  lemma EmptyParts(a: seq<char>, b: seq<char>)
    ensures [] + a + [] + b == a + b
  {
  }

  /** An id followed by text that cannot continue it and then a comma is read,
      and the parse resumes after the comma. */
  lemma EntryThenComma(x: int, t: seq<char>, rest: seq<char>, acc: seq<int>)
    requires ',' !in t && StopsDigits(t)
    requires |acc| < MaxFavorites
    ensures ParseEntries(FormatInt(x) + t + [','] + rest, acc) == ParseEntries(rest, acc + [x])
  {
    ScanFormatted(x, t);
    FormatIntHasNoComma(x);
    ParseSegment(FormatInt(x) + t, rest, acc);
  }

  lemma EntriesPastBracket(x: int, y: int)
    ensures ParseEntries(FormatInt(x) + [']'] + [','] + FormatInt(y), []) == [x, y]
  {
    assert ParseEntries(FormatInt(x) + [']'] + [','] + FormatInt(y), []) == ParseEntries(FormatInt(y), [x]) by {
      EntryThenComma(x, [']'], FormatInt(y), []);
      EmptyLeft([x]);
    }
    assert ParseEntries(FormatInt(y), [x]) == [x, y] by {
      LastEntryParses(y, [], [x]);
      EmptyRight(FormatInt(y));
    }
  }

  /** The parser does not stop at `]`: an id after a later comma is read too. */
  lemma ParseReadsPastBracket(x: int, y: int)
    ensures ParseFavorites(Key + ['['] + (FormatInt(x) + [']'] + [','] + FormatInt(y))) == Some([x, y])
  {
    ParseAfterLeadingKey(FormatInt(x) + [']'] + [','] + FormatInt(y));
    EntriesPastBracket(x, y);
  }

  /** A segment where `%d` fails is skipped and the parse goes on after its comma. */
  lemma ParseSkipsUnreadableSegment(seg: seq<char>, rest: seq<char>, acc: seq<int>)
    requires ',' !in seg && ScanInt(seg).None?
    requires |acc| < MaxFavorites
    ensures ParseEntries(seg + [','] + rest, acc) == ParseEntries(rest, acc)
  {
    ParseSegment(seg, rest, acc);
  }
}

=== FILE: ctext.dfy ===
/** The pieces of the C string library the config code relies on: NUL-terminated
    buffers, `strstr`, and the `%d` conversion of `snprintf` and `sscanf`. */
module CText {
  import opened Options
  import opened Search

  /** The text a C string function sees in a buffer: everything before the first NUL. */
  function CString(buf: seq<char>): (r: seq<char>)
    ensures '\0' !in r
    ensures r <= buf
    ensures |r| < |buf| ==> buf[|r|] == '\0'
  {
    var i := FirstIndex(buf, '\0');
    if i < 0 then buf else buf[..i]
  }

  /** True when `pat` occurs in `s` starting at position `i`. */
  predicate MatchAt(s: seq<char>, pat: seq<char>, i: int) {
    0 <= i && i + |pat| <= |s| && s[i..i + |pat|] == pat
  }

  /** `strstr`: the position of the first occurrence of `pat` in `s`, or -1. */
  function FindSubstring(s: seq<char>, pat: seq<char>): (r: int)
    ensures -1 <= r <= |s|
    ensures r == -1 <==> forall i :: 0 <= i <= |s| ==> !MatchAt(s, pat, i)
    ensures 0 <= r ==> MatchAt(s, pat, r) && forall i :: 0 <= i < r ==> !MatchAt(s, pat, i)
  {
    FindFrom(s, pat, 0)
  }

  /** The search of `strstr` from position `j` on. */
  function FindFrom(s: seq<char>, pat: seq<char>, j: nat): (r: int)
    ensures r == -1 || j <= r <= |s|
    ensures r == -1 <==> forall i :: j <= i <= |s| ==> !MatchAt(s, pat, i)
    ensures 0 <= r ==> MatchAt(s, pat, r) && forall i :: j <= i < r ==> !MatchAt(s, pat, i)
    decreases |s| + 1 - j
  {
    if j > |s| then -1
    else if MatchAt(s, pat, j) then j
    else FindFrom(s, pat, j + 1)
  }

  /** The characters `isspace` accepts in the C locale; `%d` skips them first. */
  predicate IsSpace(c: char) {
    c == ' ' || c == '\t' || c == '\n' || c == '\U{0B}' || c == '\U{0C}' || c == '\r'
  }

  predicate IsDigit(c: char) {
    '0' <= c <= '9'
  }

  predicate AllDigits(s: seq<char>) {
    forall i :: 0 <= i < |s| ==> IsDigit(s[i])
  }

  /** True when a digit run ending just before `t` cannot continue into `t`. */
  predicate StopsDigits(t: seq<char>) {
    |t| == 0 || !IsDigit(t[0])
  }

  /** The number of leading whitespace characters. */
  function LeadingSpaces(s: seq<char>): (k: nat)
    ensures k <= |s|
    ensures forall i :: 0 <= i < k ==> IsSpace(s[i])
    ensures k < |s| ==> !IsSpace(s[k])
  {
    if |s| > 0 && IsSpace(s[0]) then 1 + LeadingSpaces(s[1..]) else 0
  }

  /** The length of the longest run of digits at the start of `s`. */
  function DigitRun(s: seq<char>): (k: nat)
    ensures k <= |s|
    ensures AllDigits(s[..k])
    ensures StopsDigits(s[k..])
  {
    if |s| > 0 && IsDigit(s[0]) then
      var k := 1 + DigitRun(s[1..]);
      assert s[..k] == [s[0]] + s[1..][..k - 1];
      k
    else 0
  }

  function DigitValue(c: char): (d: nat)
    requires IsDigit(c)
    ensures d < 10
  {
    (c as int - '0' as int) as nat
  }

  function DigitChar(d: nat): (c: char)
    requires d < 10
    ensures IsDigit(c) && DigitValue(c) == d
  {
    ('0' as int + d) as char
  }

  /** The value of a decimal numeral, most significant digit first. */
  function NumeralValue(ds: seq<char>): nat
    requires AllDigits(ds)
  {
    if |ds| == 0 then 0
    else NumeralValue(ds[..|ds| - 1]) * 10 + DigitValue(ds[|ds| - 1])
  }

  /** The decimal numeral of `n` without leading zeros (`"0"` for zero). */
  function Numeral(n: nat): (ds: seq<char>)
    ensures 0 < |ds|
    ensures AllDigits(ds)
    ensures |ds| > 1 ==> ds[0] != '0'
  {
    if n < 10 then [DigitChar(n)]
    else Numeral(n / 10) + [DigitChar(n % 10)]
  }

  /** `%d` as `snprintf` prints it: a minus sign for negative values, then the numeral. */
  function FormatInt(x: int): (s: seq<char>)
    ensures 0 < |s|
    ensures s[0] == '-' <==> x < 0
    // A corollary of the clauses below, kept for readers: the first character.
    ensures s[0] == '-' || IsDigit(s[0])
    ensures forall i :: 0 <= i < |s| ==> s[i] == '-' || IsDigit(s[i])
    ensures var ds := if x < 0 then s[1..] else s;
            0 < |ds| && AllDigits(ds) && (|ds| > 1 ==> ds[0] != '0')
  {
    if x < 0 then
      var ds := Numeral(-x);
      DropHead('-', ds);
      ['-'] + ds
    else Numeral(x)
  }

  /** The digits at the start of `u`, read as a number; `None` when there are none. */
  function ScanDigits(u: seq<char>): (r: Option<nat>)
    ensures r.None? <==> StopsDigits(u)
  {
    var k := DigitRun(u);
    if k == 0 then None else Some(NumeralValue(u[..k]))
  }

  /** An optional sign followed by digits. */
  function ScanSigned(t: seq<char>): (r: Option<int>)
    // The first-character failure case, a corollary of the exact failure condition below.
    ensures (|t| == 0 || !(IsDigit(t[0]) || t[0] == '-' || t[0] == '+')) ==> r == None
    ensures r.None? <==> StopsDigits(if |t| > 0 && (t[0] == '+' || t[0] == '-') then t[1..] else t)
  {
    if |t| > 0 && t[0] == '-' then
      match ScanDigits(t[1..])
      case None => None
      case Some(v) => var n: int := v; Some(-n)
    else if |t| > 0 && t[0] == '+' then
      match ScanDigits(t[1..])
      case None => None
      case Some(v) => Some(v)
    else
      match ScanDigits(t)
      case None => None
      case Some(v) => Some(v)
  }

  /** `sscanf(s, "%d", &v)`: skip whitespace, take an optional sign, then read the
      longest run of digits; with no digit there the conversion fails. */
  function ScanInt(s: seq<char>): (r: Option<int>)
    // The first-character failure case, a corollary of the exact failure condition below.
    ensures (|s| == 0 || !(IsSpace(s[0]) || IsDigit(s[0]) || s[0] == '-' || s[0] == '+')) ==> r == None
    ensures var u := s[LeadingSpaces(s)..];
            r.None? <==> StopsDigits(if |u| > 0 && (u[0] == '+' || u[0] == '-') then u[1..] else u)
  {
    ScanSigned(s[LeadingSpaces(s)..])
  }

  lemma {:induction false} NumeralValueOfNumeral(n: nat)
    ensures NumeralValue(Numeral(n)) == n
  {
    if n >= 10 {
      var ds := Numeral(n);
      assert ds[..|ds| - 1] == Numeral(n / 10);
      NumeralValueOfNumeral(n / 10);
    }
  }

  lemma {:induction false} DigitRunOfNumeral(ds: seq<char>, t: seq<char>)
    requires AllDigits(ds)
    requires StopsDigits(t)
    ensures DigitRun(ds + t) == |ds|
  {
    if |ds| > 0 {
      assert (ds + t)[1..] == ds[1..] + t;
      DigitRunOfNumeral(ds[1..], t);
    }
  }

  /** Reading back what `%d` printed yields the printed value, as long as the
      text after it does not continue the digit run. */
  lemma ScanFormatted(x: int, t: seq<char>)
    requires StopsDigits(t)
    ensures ScanInt(FormatInt(x) + t) == Some(x)
  {
    var n: nat := if x < 0 then -x else x;
    var sign := if x < 0 then ['-'] else [];
    var ds := Numeral(n);
    assert FormatInt(x) == sign + ds by {
      if x >= 0 { EmptyLeft(ds); }
    }
    EmptyLeft(sign);
    ScanSpacedNumeral([], sign, ds, t);
    NumeralValueOfNumeral(n);
  }

  /** The value of a numeral under an optional sign. */
  function Signed(sign: seq<char>, n: nat): int {
    if sign == ['-'] then -(n as int) else n
  }

  /** `%d` on general input: leading whitespace is skipped, a `+` or `-` sign is
      taken, and the longest run of digits is read as a decimal value. */
  lemma ScanSpacedNumeral(ws: seq<char>, sign: seq<char>, ds: seq<char>, t: seq<char>)
    requires forall i :: 0 <= i < |ws| ==> IsSpace(ws[i])
    requires sign == [] || sign == ['+'] || sign == ['-']
    requires 0 < |ds| && AllDigits(ds)
    requires StopsDigits(t)
    ensures ScanInt(ws + sign + ds + t) == Some(Signed(sign, NumeralValue(ds)))
  {
    ConcatAssoc(ws + sign, ds, t);
    ConcatAssoc(ws, sign, ds + t);
    ScanSpacedDigits(ws, sign, ds, t, ds + t);
  }

  /** The same, with the digits and what follows them named `w`. */
  lemma ScanSpacedDigits(ws: seq<char>, sign: seq<char>, ds: seq<char>, t: seq<char>, w: seq<char>)
    requires forall i :: 0 <= i < |ws| ==> IsSpace(ws[i])
    requires sign == [] || sign == ['+'] || sign == ['-']
    requires 0 < |ds| && AllDigits(ds)
    requires StopsDigits(t)
    requires w == ds + t
    ensures ScanInt(ws + (sign + w)) == Some(Signed(sign, NumeralValue(ds)))
  {
    DigitsThen(ds, t);
    ScanSpacedSigned(ws, sign, w);
  }

  /** Whitespace, an optional sign, then text that starts with a digit. */
  lemma ScanSpacedSigned(ws: seq<char>, sign: seq<char>, w: seq<char>)
    requires forall i :: 0 <= i < |ws| ==> IsSpace(ws[i])
    requires sign == [] || sign == ['+'] || sign == ['-']
    requires 0 < |w| && IsDigit(w[0])
    ensures ScanInt(ws + (sign + w)) == Some(Signed(sign, ScanDigits(w).value))
  {
    SpacesBeforeSign(ws, sign, w);
    ScanSignedNumeral(sign, w);
  }

  /** A digit run followed by text that does not continue it reads as its value. */
  lemma DigitsThen(ds: seq<char>, t: seq<char>)
    requires 0 < |ds| && AllDigits(ds)
    requires StopsDigits(t)
    ensures 0 < |ds + t| && IsDigit((ds + t)[0])
    ensures ScanDigits(ds + t) == Some(NumeralValue(ds))
  {
    DigitRunOfNumeral(ds, t);
    TakeConcat(ds, t);
  }

  /** `%d` skips the whitespace in front of a sign or a digit. */
  lemma SpacesBeforeSign(ws: seq<char>, sign: seq<char>, w: seq<char>)
    requires forall i :: 0 <= i < |ws| ==> IsSpace(ws[i])
    requires sign == [] || sign == ['+'] || sign == ['-']
    requires 0 < |w| && IsDigit(w[0])
    ensures ScanInt(ws + (sign + w)) == ScanSigned(sign + w)
  {
    var u := sign + w;
    assert u[0] == (if sign == [] then w[0] else sign[0]);
    SpacesSkipped(ws, u);
    DropConcat(ws, u);
  }

  /** An optional sign in front of text whose digits `%d` can read. */
  lemma ScanSignedNumeral(sign: seq<char>, w: seq<char>)
    requires sign == [] || sign == ['+'] || sign == ['-']
    requires 0 < |w| && IsDigit(w[0])
    ensures ScanSigned(sign + w) == Some(Signed(sign, ScanDigits(w).value))
  {
    if sign == [] {
      assert sign + w == w;
    } else {
      var c := sign[0];
      assert sign == [c];
      SignedTail(c, w);
    }
  }

  /** After a sign, `%d` reads the digits that follow it and applies the sign. */
  lemma SignedTail(c: char, w: seq<char>)
    requires c == '+' || c == '-'
    requires ScanDigits(w).Some?
    ensures ScanSigned([c] + w) ==
              Some(if c == '-' then -(ScanDigits(w).value as int) else ScanDigits(w).value as int)
  {
    DropHead(c, w);
  }

  /** Whitespace before a character that is not whitespace is skipped exactly. */
  lemma {:induction false} SpacesSkipped(ws: seq<char>, u: seq<char>)
    requires forall i :: 0 <= i < |ws| ==> IsSpace(ws[i])
    requires 0 < |u| && !IsSpace(u[0])
    ensures LeadingSpaces(ws + u) == |ws|
    decreases |ws|
  {
    if |ws| == 0 {
      assert ws + u == u;
    } else {
      assert (ws + u)[1..] == ws[1..] + u;
      SpacesSkipped(ws[1..], u);
    }
  }

  /** Sequence facts the text proofs rely on, stated over plain sequences so
      that no function of the model has to be unfolded to use them. */
  lemma ConcatAssoc(a: seq<char>, b: seq<char>, c: seq<char>)
    ensures (a + b) + c == a + (b + c)
  {
  }

  lemma TakeConcat(a: seq<char>, b: seq<char>)
    ensures (a + b)[..|a|] == a
  {
  }

  lemma DropConcat(a: seq<char>, b: seq<char>)
    ensures (a + b)[|a|..] == b
  {
  }

  /** The three parts of `a + b + c` are read back by slicing. */
  lemma FramedParts(a: seq<char>, b: seq<char>, c: seq<char>)
    ensures var s := a + b + c;
            && |a| + |c| <= |s|
            && s[..|a|] == a
            && s[|s| - |c|..] == c
            && s[|a|..|s| - |c|] == b
  {
  }

  lemma NotInFramed(x: char, a: seq<char>, b: seq<char>, c: seq<char>)
    requires x !in a && x !in b && x !in c
    ensures x !in a + b + c
  {
  }

  lemma DropHead(c: char, u: seq<char>)
    ensures ([c] + u)[1..] == u
  {
  }

  lemma EmptyLeft<T>(a: seq<T>)
    ensures [] + a == a
  {
  }

  lemma EmptyRight<T>(a: seq<T>)
    ensures a + [] == a
  {
  }

  function Pow10(k: nat): (p: nat)
    ensures 0 < p
  {
    if k == 0 then 1 else 10 * Pow10(k - 1)
  }

  lemma {:induction false} NumeralLength(n: nat, k: nat)
    requires 0 < k
    requires n < Pow10(k)
    ensures |Numeral(n)| <= k
  {
    if n >= 10 {
      NumeralLength(n / 10, k - 1);
    }
  }

  /** The 32-bit range of a C `int`. */
  predicate IsInt32(x: int) {
    -0x8000_0000 <= x < 0x8000_0000
  }

  /** Every value of `s` fits a C `int`. */
  predicate AllInt32(s: seq<int>) {
    forall i :: 0 <= i < |s| ==> IsInt32(s[i])
  }

  /** A C `int` prints in at most eleven characters. */
  lemma FormatInt32Length(x: int)
    requires IsInt32(x)
    ensures |FormatInt(x)| <= 11
  {
    assert Pow10(10) == 10_000_000_000;
    NumeralLength(if x < 0 then -x else x, 10);
  }
}

=== FILE: favorites.dfy ===
/** The favorites store: a bounded list of language ids kept in insertion order. */
module Favorites {
  import opened Search

  /** Capacity of the favorites array (`MAX_LANGS`). */
  const MaxFavorites: nat := 32

  /** A list the program can hold: no more entries than the array has room for. */
  predicate Bounded(favs: seq<int>) {
    |favs| <= MaxFavorites
  }

  /** Flips membership of `x`: a present id has its first occurrence spliced out,
      an absent id is appended unless the list is full, in which case nothing changes.
      The order of the other entries is kept in every case. */
  function Toggle(favs: seq<int>, x: int): (r: seq<int>)
    ensures x in favs ==>
      exists i :: 0 <= i < |favs| && favs[i] == x && x !in favs[..i] && r == favs[..i] + favs[i+1..]
    ensures x !in favs && |favs| < MaxFavorites ==> r == favs + [x]
    ensures x !in favs && |favs| >= MaxFavorites ==> r == favs
    ensures Bounded(favs) ==> Bounded(r)
  {
    var i := FirstIndex(favs, x);
    if i >= 0 then favs[..i] + favs[i+1..]
    else if |favs| < MaxFavorites then favs + [x]
    else favs
  }

  /** Removing a present id takes exactly one copy of it out of the list and
      leaves every other id's count alone. */
  lemma ToggleRemovesOneCopy(favs: seq<int>, x: int)
    requires x in favs
    ensures multiset(Toggle(favs, x)) == multiset(favs) - multiset{x}
    ensures |Toggle(favs, x)| == |favs| - 1
  {
    var i := FirstIndex(favs, x);
    assert favs == favs[..i] + [x] + favs[i+1..];
    assert multiset(favs) == multiset(favs[..i]) + multiset{x} + multiset(favs[i+1..]);
  }

  /** Toggling never introduces a duplicate into a duplicate-free list. */
  lemma ToggleKeepsNoDup(favs: seq<int>, x: int)
    requires NoDup(favs)
    ensures NoDup(Toggle(favs, x))
  {
    var r := Toggle(favs, x);
    var i := FirstIndex(favs, x);
    if i >= 0 {
      forall a, b | 0 <= a < b < |r|
        ensures r[a] != r[b]
      {
        var a' := if a < i then a else a + 1;
        var b' := if b < i then b else b + 1;
        assert r[a] == favs[a'] && r[b] == favs[b'];
      }
    }
  }

  /** For an absent id and a list with room, toggling twice restores the list. */
  lemma ToggleSelfInverse(favs: seq<int>, x: int)
    requires x !in favs
    requires |favs| < MaxFavorites
    ensures Toggle(Toggle(favs, x), x) == favs
  {
    var once := favs + [x];
    assert FirstIndex(once, x) == |favs| by {
      assert x !in once[..|favs|] by { assert once[..|favs|] == favs; }
    }
    assert once[..|favs|] == favs;
  }

  /** For a present id in a duplicate-free bounded list, toggling twice moves
      that id to the end of the list: insertion order is not restored. */
  lemma ToggleTwiceMovesToEnd(favs: seq<int>, x: int)
    requires NoDup(favs)
    requires Bounded(favs)
    requires x in favs
    ensures var i := FirstIndex(favs, x);
            Toggle(Toggle(favs, x), x) == favs[..i] + favs[i+1..] + [x]
  {
  }

  /** Every id in the toggled list was already in the list or is the toggled id. */
  lemma ToggleDrawsFrom(favs: seq<int>, x: int)
    ensures forall y :: y in Toggle(favs, x) ==> y in favs || y == x
  {
    var r := Toggle(favs, x);
    var i := FirstIndex(favs, x);
    if i >= 0 {
      forall y | y in r
        ensures y in favs
      {
        var k :| 0 <= k < |r| && r[k] == y;
        assert y == favs[if k < i then k else k + 1];
      }
    }
  }
}

=== FILE: frame.dfy ===
/** One pass of the program's main loop without the drawing: edge detection on
    the sampled buttons, then the handlers in their fixed order DOWN, UP, RIGHT,
    LEFT, CROSS, TRIANGLE, CIRCLE; and the loop itself over a sequence of samples. */
module Frame {
  import opened Options
  import opened Search
  import opened CText
  import opened Favorites
  import opened Config
  import opened Navigator

  /** The buttons of one input sample. */
  datatype Button = Select | Start | Up | Right | Down | Left | LTrigger | RTrigger
                  | Triangle | Circle | Cross | Square

  /** The state the handlers share: the navigator's view and the favorites list. */
  datatype State = State(view: View, favs: seq<int>)

  /** What one frame does: the new state, the language id CROSS hands to the
      system registry, the config text TRIANGLE writes, and whether CIRCLE ends
      the loop. */
  datatype Outcome = Outcome(state: State, apply: Option<int>, saved: Option<seq<char>>, quit: bool)

  /** Buttons down in this sample that were up in the previous one
      (`pad.buttons & ~old.buttons`): a held button acts once, on its first frame. */
  function NewlyPressed(now: set<Button>, before: set<Button>): (r: set<Button>)
    ensures r <= now
    ensures r * before == {}
    ensures forall b :: b in now && b !in before ==> b in r
  {
    now - before
  }

  /** The start of `main`: the first row selected and shown at the top, and the
      favorites read from the config file over an empty list. */
  function Init(catalog: seq<int>, file: Option<seq<char>>): (st: State)
    requires 0 < |catalog|
    ensures Valid(st.view, |catalog|) && InWindow(st.view)
    ensures Bounded(st.favs)
    ensures file.None? ==> st.favs == []
  {
    State(View(0, 0), LoadConfig(file, []))
  }

  /** The d-pad handlers of one frame, in their fixed order DOWN, UP, RIGHT, LEFT. */
  function Navigate(catalog: seq<int>, favs: seq<int>, v: View, pressed: set<Button>): (r: View)
    requires Valid(v, |catalog|)
    ensures Valid(r, |catalog|)
    ensures Right !in pressed && Left !in pressed && InWindow(v) ==> InWindow(r)
    ensures Down !in pressed && Up !in pressed && Right !in pressed && Left !in pressed ==> r == v
    ensures || r.sel == v.sel
            || ((Right in pressed || Left in pressed) && catalog[r.sel] in favs)
            || ((Down in pressed || Up in pressed) && -1 <= r.sel - v.sel <= 1)
  {
    var v1 := if Down in pressed then MoveDown(v, |catalog|) else v;
    var v2 := if Up in pressed then MoveUp(v1) else v1;
    var v3 := if Right in pressed then JumpNext(v2, catalog, favs) else v2;
    if Left in pressed then JumpPrev(v3, catalog, favs) else v3
  }

  /** Each d-pad handler sees the view the earlier ones left: with several
      directions pressed in one frame, the moves run before the jumps, DOWN
      before UP and RIGHT before LEFT. */
  lemma NavigateComposesHandlers(catalog: seq<int>, favs: seq<int>, v: View)
    requires Valid(v, |catalog|)
    ensures Navigate(catalog, favs, v, {Down, Up}) == MoveUp(MoveDown(v, |catalog|))
    ensures Navigate(catalog, favs, v, {Down, Right}) == JumpNext(MoveDown(v, |catalog|), catalog, favs)
    ensures Navigate(catalog, favs, v, {Up, Left}) == JumpPrev(MoveUp(v), catalog, favs)
    ensures Navigate(catalog, favs, v, {Right, Left}) == JumpPrev(JumpNext(v, catalog, favs), catalog, favs)
  {
    var du: set<Button> := {Down, Up};
    assert Down in du && Up in du && Right !in du && Left !in du;
    var dr: set<Button> := {Down, Right};
    assert Down in dr && Up !in dr && Right in dr && Left !in dr;
    var ul: set<Button> := {Up, Left};
    assert Down !in ul && Up in ul && Right !in ul && Left in ul;
    var rl: set<Button> := {Right, Left};
    assert Down !in rl && Up !in rl && Right in rl && Left in rl;
  }

  /** DOWN and UP in one frame keep the row but not always the window: from the
      bottom row of the window, DOWN scrolls it down by one and UP, coming second,
      has no reason to scroll it back; the other order would have left it alone. */
  lemma DownThenUpScrolls(catalog: seq<int>, favs: seq<int>, v: View)
    requires Valid(v, |catalog|) && InWindow(v)
    requires v.sel == v.offset + Rows - 1 && v.sel < |catalog| - 1
    ensures Navigate(catalog, favs, v, {Down, Up}) == View(v.sel, v.offset + 1)
    ensures MoveDown(MoveUp(v), |catalog|) == v
  {
    NavigateComposesHandlers(catalog, favs, v);
  }

  /** The handlers of one frame, given the newly pressed buttons: the d-pad moves
      the selection, CROSS applies the selected language, TRIANGLE toggles it as a
      favorite and writes the config, CIRCLE ends the loop. */
  function Step(catalog: seq<int>, st: State, pressed: set<Button>): (r: Outcome)
    requires Valid(st.view, |catalog|)
    ensures r.state.view == Navigate(catalog, st.favs, st.view, pressed)
    ensures Bounded(st.favs) ==> Bounded(r.state.favs)
    ensures NoDup(st.favs) ==> NoDup(r.state.favs)
    ensures Triangle !in pressed ==> r.state.favs == st.favs && r.saved.None?
    ensures Triangle in pressed ==>
              r.state.favs == Toggle(st.favs, catalog[r.state.view.sel]) &&
              r.saved == Some(SaveConfig(r.state.favs))
    ensures Cross in pressed ==> r.apply == Some(catalog[r.state.view.sel])
    ensures Cross !in pressed ==> r.apply.None?
    ensures r.quit <==> Circle in pressed
  {
    var v := Navigate(catalog, st.favs, st.view, pressed);
    var x := catalog[v.sel];
    var apply := if Cross in pressed then Some(x) else None;
    var favs := if Triangle in pressed then Toggle(st.favs, x) else st.favs;
    var saved := if Triangle in pressed then Some(SaveConfig(favs)) else None;
    assert NoDup(st.favs) ==> NoDup(Toggle(st.favs, x)) by {
      if NoDup(st.favs) { ToggleKeepsNoDup(st.favs, x); }
    }
    Outcome(State(v, favs), apply, saved, Circle in pressed)
  }

  /** A config file that `save_config` wrote is read back whole at start-up: the
      program resumes with the favorites it saved. */
  lemma InitResumes(catalog: seq<int>, favs: seq<int>)
    requires 0 < |catalog|
    requires Bounded(favs) && AllInt32(favs)
    ensures Init(catalog, Some(SaveConfig(favs))).favs == favs
  {
    SaveLoadRoundTrip(favs, []);
  }

  /** Whenever TRIANGLE writes the config, reading that text back yields exactly
      the favorites the frame ends with, so a restart resumes with them. */
  lemma StepSavesWhatItKeeps(catalog: seq<int>, st: State, pressed: set<Button>, prev: seq<int>)
    requires Valid(st.view, |catalog|)
    requires AllInt32(catalog) && AllInt32(st.favs) && Bounded(st.favs)
    requires Triangle in pressed
    ensures var r := Step(catalog, st, pressed);
            r.saved.Some? && LoadConfig(r.saved, prev) == r.state.favs
  {
    var r := Step(catalog, st, pressed);
    var x := catalog[r.state.view.sel];
    ToggleDrawsFrom(st.favs, x);
    assert AllInt32(r.state.favs) by {
      forall i | 0 <= i < |r.state.favs|
        ensures IsInt32(r.state.favs[i])
      {
        assert r.state.favs[i] in Toggle(st.favs, x);
      }
    }
    SaveLoadRoundTrip(r.state.favs, prev);
  }

  /** The main loop over a sequence of input samples, starting from the sample
      `last` seen before: each frame acts on the buttons newly pressed since the
      previous sample and the loop ends after a frame that saw CIRCLE. */
  function Run(catalog: seq<int>, st: State, last: set<Button>, pads: seq<set<Button>>): (r: State)
    requires Valid(st.view, |catalog|)
    ensures Valid(r.view, |catalog|)
    ensures Bounded(st.favs) ==> Bounded(r.favs)
    ensures NoDup(st.favs) ==> NoDup(r.favs)
    decreases |pads|
  {
    if |pads| == 0 then st
    else
      var out := Step(catalog, st, NewlyPressed(pads[0], last));
      if out.quit then out.state else Run(catalog, out.state, pads[0], pads[1..])
  }

  /** A frame that sees CIRCLE newly pressed is the last: its own handlers still
      run, and no later sample is looked at. */
  lemma RunStopsOnCircle(catalog: seq<int>, st: State, last: set<Button>, pads: seq<set<Button>>)
    requires Valid(st.view, |catalog|)
    requires 0 < |pads| && Circle in pads[0] && Circle !in last
    ensures Run(catalog, st, last, pads) == Step(catalog, st, NewlyPressed(pads[0], last)).state
    ensures Run(catalog, st, last, pads) == Run(catalog, st, last, pads[..1])
  {
    assert Circle in NewlyPressed(pads[0], last);
    assert pads[..1][0] == pads[0];
  }

  /** TRIANGLE tapped, released and tapped again toggles twice: the loop goes on
      to the later samples after a frame without CIRCLE. */
  lemma RepeatedTapTogglesTwice(catalog: seq<int>, st: State, pad: set<Button>)
    requires Valid(st.view, |catalog|)
    requires Triangle in pad && Circle !in pad
    requires pad * {Down, Up, Right, Left} == {}
    ensures var x := catalog[st.view.sel];
            Run(catalog, st, {}, [pad, {}, pad]).favs == Toggle(Toggle(st.favs, x), x)
  {
    var pads := [pad, {}, pad];
    var first := Step(catalog, st, NewlyPressed(pad, {}));
    var second := Step(catalog, first.state, NewlyPressed({}, pad));
    var third := Step(catalog, second.state, NewlyPressed(pad, {}));
    assert NewlyPressed(pad, {}) == pad;
    assert NewlyPressed({}, pad) == {};
    assert pads[1..] == [{}, pad] && pads[1..][1..] == [pad] && pads[1..][1..][1..] == [];
    assert Run(catalog, third.state, pad, []) == third.state;
    assert Run(catalog, second.state, {}, [pad]) == third.state;
    assert Run(catalog, first.state, pad, [{}, pad]) == third.state;
  }

  /** Holding TRIANGLE over two samples toggles once, not twice. */
  lemma HeldTriangleTogglesOnce(catalog: seq<int>, st: State, pad: set<Button>)
    requires Valid(st.view, |catalog|)
    requires Triangle in pad && Circle !in pad
    requires pad * {Down, Up, Right, Left} == {}
    ensures Run(catalog, st, {}, [pad, pad]).favs == Toggle(st.favs, catalog[st.view.sel])
  {
    var first := Step(catalog, st, NewlyPressed(pad, {}));
    var second := Step(catalog, first.state, NewlyPressed(pad, pad));
    assert NewlyPressed(pad, pad) == {};
    assert [pad, pad][1..] == [pad];
    assert Run(catalog, first.state, pad, [pad]) == second.state;
  }
}

=== FILE: navigator.dfy ===
/** The list navigator: the selected catalog row and the first row of the
    ten-row window shown on screen, moved by the d-pad handlers. */
module Navigator {
  import opened Options
  import opened Search

  /** Rows visible at once. */
  const Rows: int := 10

  /** `sel` is the selected catalog index, `offset` the first visible row. */
  datatype View = View(sel: int, offset: int)

  /** The selection names a row of a catalog of `n` entries. */
  predicate Valid(v: View, n: int) {
    0 <= v.sel < n
  }

  /** The selection is inside the visible window. */
  predicate InWindow(v: View) {
    0 <= v.offset <= v.sel < v.offset + Rows
  }

  /** DOWN: step one row down unless on the last one, scrolling by one row when
      the selection would fall below the window. */
  function MoveDown(v: View, n: int): (r: View)
    ensures r.sel == v.sel + 1 <==> v.sel < n - 1
    ensures r.sel == v.sel || r.sel == v.sel + 1
    ensures r.offset == v.offset || r.offset == v.offset + 1
    ensures Valid(v, n) ==> Valid(r, n)
    ensures InWindow(v) ==> InWindow(r)
    ensures r.offset == v.offset + 1 <==> r.sel - v.offset >= Rows
    ensures InWindow(v) ==> (r.offset == v.offset + 1 <==> r.sel == v.offset + Rows)
  {
    var sel := if v.sel < n - 1 then v.sel + 1 else v.sel;
    var offset := if sel - v.offset >= Rows then v.offset + 1 else v.offset;
    View(sel, offset)
  }

  /** UP: step one row up unless on the first one, scrolling by one row when
      the selection would rise above the window. */
  function MoveUp(v: View): (r: View)
    ensures r.sel == v.sel - 1 <==> v.sel > 0
    ensures r.sel == v.sel || r.sel == v.sel - 1
    ensures r.offset == v.offset || r.offset == v.offset - 1
    ensures forall n :: Valid(v, n) ==> Valid(r, n)
    ensures InWindow(v) ==> InWindow(r)
    ensures r.offset == v.offset - 1 <==> r.sel < v.offset
    ensures InWindow(v) ==> (r.offset == v.offset - 1 <==> r.sel == v.offset - 1)
  {
    var sel := if v.sel > 0 then v.sel - 1 else v.sel;
    var offset := if sel < v.offset then v.offset - 1 else v.offset;
    View(sel, offset)
  }

  /** The catalog index of the `i`-th favorite, -1 when the id is not in the catalog. */
  function FavIndex(catalog: seq<int>, favs: seq<int>, i: int): int
    requires 0 <= i < |favs|
  {
    FirstIndex(catalog, favs[i])
  }

  /** The forward scan of RIGHT from stored position `j` on: the position of the
      first favorite whose catalog index is beyond `cur`; `None` when there is none. */
  function NextTarget(catalog: seq<int>, favs: seq<int>, cur: int, j: nat): (t: Option<nat>)
    requires j <= |favs|
    ensures t.None? <==> forall i :: j <= i < |favs| ==> FavIndex(catalog, favs, i) <= cur
    ensures t.Some? ==> j <= t.value < |favs| && cur < FavIndex(catalog, favs, t.value)
    ensures t.Some? ==> forall k :: j <= k < t.value ==> FavIndex(catalog, favs, k) <= cur
    decreases |favs| - j
  {
    if j == |favs| then None
    else if FavIndex(catalog, favs, j) > cur then Some(j)
    else NextTarget(catalog, favs, cur, j + 1)
  }

  /** The backward scan of LEFT over stored positions below `j`: the position of
      the last favorite whose catalog index is below `cur`; `None` when there is
      none. An id missing from the catalog has index -1 and so counts as below
      any row. */
  function PrevTarget(catalog: seq<int>, favs: seq<int>, cur: int, j: nat): (t: Option<nat>)
    requires j <= |favs|
    ensures t.None? <==> forall i :: 0 <= i < j ==> FavIndex(catalog, favs, i) >= cur
    ensures t.Some? ==> t.value < j && FavIndex(catalog, favs, t.value) < cur
    ensures t.Some? ==> forall k :: t.value < k < j ==> FavIndex(catalog, favs, k) >= cur
  {
    if j == 0 then None
    else if FavIndex(catalog, favs, j - 1) < cur then Some(j - 1)
    else PrevTarget(catalog, favs, cur, j - 1)
  }

  /** The handlers recompute the selection's catalog index by looking its id up. */
  function Current(catalog: seq<int>, v: View): (cur: int)
    requires Valid(v, |catalog|)
    ensures 0 <= cur <= v.sel
    ensures NoDup(catalog) ==> cur == v.sel
  {
    EntryFoundAtOrBefore(catalog, v.sel);
    FirstIndex(catalog, catalog[v.sel])
  }

  /** RIGHT: jump to the next favorite after the selection in stored order,
      wrapping to the first stored favorite; a favorite missing from the catalog
      is never selected. Afterwards the window is scrolled forward only. */
  function JumpNext(v: View, catalog: seq<int>, favs: seq<int>): (r: View)
    requires Valid(v, |catalog|)
    ensures |favs| == 0 ==> r == v
    ensures Valid(r, |catalog|)
    ensures r.sel == v.sel || catalog[r.sel] in favs
    ensures r == v || (r.sel < r.offset + Rows && v.offset <= r.offset)
    ensures NextTarget(catalog, favs, Current(catalog, v), 0).Some? ==>
              r.sel == FavIndex(catalog, favs, NextTarget(catalog, favs, Current(catalog, v), 0).value)
    ensures |favs| > 0 && NextTarget(catalog, favs, Current(catalog, v), 0).None? ==>
              r.sel == (if favs[0] in catalog then FirstIndex(catalog, favs[0]) else v.sel)
    ensures |favs| > 0 && NextTarget(catalog, favs, Current(catalog, v), 0).None? && favs[0] !in catalog ==>
              r == v
    ensures |favs| > 0 && (NextTarget(catalog, favs, Current(catalog, v), 0).Some? || favs[0] in catalog) ==>
              r.offset == (if v.offset < r.sel - (Rows - 1) then r.sel - (Rows - 1) else v.offset)
  {
    if |favs| == 0 then v
    else
      var cur := Current(catalog, v);
      var hit := match NextTarget(catalog, favs, cur, 0) case Some(i) => FavIndex(catalog, favs, i) case None => -1;
      var found := if hit == -1 then FirstIndex(catalog, favs[0]) else hit;
      if found == -1 then v
      else if found - v.offset >= Rows then View(found, found - (Rows - 1))
      else View(found, v.offset)
  }

  /** LEFT: jump to the previous favorite before the selection in stored order,
      wrapping to the last stored favorite. Meeting a favorite that is missing
      from the catalog ends the scan as a miss. Afterwards the window is scrolled
      backward only. */
  function JumpPrev(v: View, catalog: seq<int>, favs: seq<int>): (r: View)
    requires Valid(v, |catalog|)
    ensures |favs| == 0 ==> r == v
    ensures Valid(r, |catalog|)
    ensures r.sel == v.sel || catalog[r.sel] in favs
    ensures r == v || (r.offset <= r.sel && r.offset <= v.offset)
    ensures var t := PrevTarget(catalog, favs, Current(catalog, v), |favs|);
            t.Some? && FavIndex(catalog, favs, t.value) >= 0 ==> r.sel == FavIndex(catalog, favs, t.value)
    ensures var t := PrevTarget(catalog, favs, Current(catalog, v), |favs|);
            |favs| > 0 && (t.None? || FavIndex(catalog, favs, t.value) < 0) ==>
              r.sel == (if favs[|favs| - 1] in catalog then FirstIndex(catalog, favs[|favs| - 1]) else v.sel)
    ensures var t := PrevTarget(catalog, favs, Current(catalog, v), |favs|);
            |favs| > 0 && (t.None? || FavIndex(catalog, favs, t.value) < 0) && favs[|favs| - 1] !in catalog ==>
              r == v
    ensures var t := PrevTarget(catalog, favs, Current(catalog, v), |favs|);
            |favs| > 0 && ((t.Some? && FavIndex(catalog, favs, t.value) >= 0) || favs[|favs| - 1] in catalog) ==>
              r.offset == (if r.sel < v.offset then r.sel else v.offset)
  {
    if |favs| == 0 then v
    else
      var cur := Current(catalog, v);
      var hit := match PrevTarget(catalog, favs, cur, |favs|) case Some(i) => FavIndex(catalog, favs, i) case None => -1;
      var found := if hit == -1 then FirstIndex(catalog, favs[|favs| - 1]) else hit;
      if found == -1 then v
      else if found < v.offset then View(found, found)
      else View(found, v.offset)
  }

  /** With distinct catalog ids, RIGHT moves to the first favorite in stored order
      that lies below the selection whenever there is one. */
  lemma JumpNextFindsFirstAhead(v: View, catalog: seq<int>, favs: seq<int>)
    requires Valid(v, |catalog|)
    requires NoDup(catalog)
    requires exists i :: 0 <= i < |favs| && FavIndex(catalog, favs, i) > v.sel
    ensures v.sel < JumpNext(v, catalog, favs).sel
    ensures exists i :: 0 <= i < |favs| && catalog[JumpNext(v, catalog, favs).sel] == favs[i] &&
              forall k :: 0 <= k < i ==> FavIndex(catalog, favs, k) <= v.sel
  {
    var t := NextTarget(catalog, favs, v.sel, 0);
    assert t.Some?;
  }

  /** With distinct catalog ids and no favorite below the selection, RIGHT wraps to
      the first stored favorite, wherever it sits in the catalog. */
  lemma JumpNextWrapsToFirstStored(v: View, catalog: seq<int>, favs: seq<int>)
    requires Valid(v, |catalog|)
    requires NoDup(catalog)
    requires 0 < |favs| && favs[0] in catalog
    requires forall i :: 0 <= i < |favs| ==> FavIndex(catalog, favs, i) <= v.sel
    ensures catalog[JumpNext(v, catalog, favs).sel] == favs[0]
  {
  }

  /** RIGHT keeps the selection above the bottom of the window and the offset
      non-negative, starting from a selection inside the window. */
  lemma JumpNextKeepsWindowBottom(v: View, catalog: seq<int>, favs: seq<int>)
    requires Valid(v, |catalog|)
    requires InWindow(v)
    ensures var r := JumpNext(v, catalog, favs);
            0 <= r.offset && r.sel < r.offset + Rows
  {
  }

  /** LEFT keeps the selection below the top of the window, starting from a
      selection inside the window. */
  lemma JumpPrevKeepsWindowTop(v: View, catalog: seq<int>, favs: seq<int>)
    requires Valid(v, |catalog|)
    requires InWindow(v)
    ensures var r := JumpPrev(v, catalog, favs);
            0 <= r.offset <= r.sel
  {
  }

  /** With distinct catalog ids, LEFT moves to the last favorite in stored order
      that lies above the selection, provided no favorite stored after it is
      missing from the catalog. */
  lemma JumpPrevFindsLastBehind(v: View, catalog: seq<int>, favs: seq<int>, i: int)
    requires Valid(v, |catalog|)
    requires NoDup(catalog)
    requires 0 <= i < |favs|
    requires 0 <= FavIndex(catalog, favs, i) < v.sel
    requires forall k :: i < k < |favs| ==> FavIndex(catalog, favs, k) >= v.sel
    ensures JumpPrev(v, catalog, favs).sel == FavIndex(catalog, favs, i)
  {
    var t := PrevTarget(catalog, favs, v.sel, |favs|);
    assert t.Some?;
    assert t.value == i;
  }

  /** A last stored favorite that is missing from the catalog turns LEFT into a
      no-op: its index -1 counts as a hit below the selection, the hit value -1
      reads as "not found", and the wrap target is that same missing id. */
  lemma JumpPrevStuckOnMissingLast(v: View, catalog: seq<int>, favs: seq<int>)
    requires Valid(v, |catalog|)
    requires 0 < |favs| && favs[|favs| - 1] !in catalog
    ensures JumpPrev(v, catalog, favs) == v
  {
    assert PrevTarget(catalog, favs, Current(catalog, v), |favs|) == Some(|favs| - 1);
  }

  /** Stored order decides: with the favorites stored as the ids of rows 5, 2 and 9
      of a catalog of distinct ids, RIGHT from row 2 goes to row 5, the first
      stored favorite below it. */
  lemma JumpNextFollowsStoredOrder(catalog: seq<int>)
    requires NoDup(catalog) && 10 <= |catalog|
    ensures JumpNext(View(2, 0), catalog, [catalog[5], catalog[2], catalog[9]]).sel == 5
  {
    var favs := [catalog[5], catalog[2], catalog[9]];
    DistinctEntryFoundAt(catalog, 5);
    assert FavIndex(catalog, favs, 0) == 5;
    JumpNextFindsFirstAhead(View(2, 0), catalog, favs);
  }

  /** With the same favorites, RIGHT from row 9 wraps to row 5, the first stored
      favorite, and not to row 2, the first one in catalog order. */
  lemma JumpNextWrapsInStoredOrder(catalog: seq<int>)
    requires NoDup(catalog) && 10 <= |catalog|
    ensures JumpNext(View(9, 0), catalog, [catalog[5], catalog[2], catalog[9]]).sel == 5
  {
    var favs := [catalog[5], catalog[2], catalog[9]];
    assert forall i :: 0 <= i < |favs| ==> FavIndex(catalog, favs, i) <= 9 by {
      DistinctEntryFoundAt(catalog, 5);
      DistinctEntryFoundAt(catalog, 2);
      DistinctEntryFoundAt(catalog, 9);
    }
    JumpNextWrapsToFirstStored(View(9, 0), catalog, favs);
  }

  /** A backward wrap of RIGHT leaves the selection above the window: from row 15
      with rows 10..19 visible, the only favorite, at row 2, is selected while the
      window stays at row 10. */
  lemma JumpNextCanLeaveWindow(catalog: seq<int>)
    requires NoDup(catalog) && |catalog| == 20
    ensures InWindow(View(15, 10))
    ensures JumpNext(View(15, 10), catalog, [catalog[2]]) == View(2, 10)
    ensures !InWindow(View(2, 10))
  {
    DistinctEntryFoundAt(catalog, 2);
    DistinctEntryFoundAt(catalog, 15);
    assert NextTarget(catalog, [catalog[2]], 15, 0) == None;
  }

  /** A forward wrap of LEFT leaves the selection below the window: from row 2
      with rows 0..9 visible, the only favorite, at row 15, is selected while the
      window stays at row 0. */
  lemma JumpPrevCanLeaveWindow(catalog: seq<int>)
    requires NoDup(catalog) && |catalog| == 20
    ensures InWindow(View(2, 0))
    ensures JumpPrev(View(2, 0), catalog, [catalog[15]]) == View(15, 0)
    ensures !InWindow(View(15, 0))
  {
    DistinctEntryFoundAt(catalog, 2);
    DistinctEntryFoundAt(catalog, 15);
    assert PrevTarget(catalog, [catalog[15]], 2, 1) == None;
  }
}

=== FILE: options.dfy ===
/** The optional value shared by every part of the model: a lookup or a `%d`
    conversion that may fail, a scan that may find nothing, a file that may not
    open, and a frame that may or may not apply or write something. */
module Options {
  datatype Option<+T> = None | Some(value: T)
}

=== FILE: search.dfy ===
/** Linear search over a fixed table, as used by the language catalog lookup,
    the favorites lookup inside the toggle, and the C library's `strchr`. */
module Search {

  /** True when no value occurs twice in `s`. */
  predicate NoDup<T(==)>(s: seq<T>) {
    forall i, j :: 0 <= i < j < |s| ==> s[i] != s[j]
  }

  /** The index of the first entry of `s` equal to `x`, or -1 when there is none.
      This is `find_index_by_id` over the catalog's ids; the same scan finds a
      favorite inside the toggle and a character inside a C string. */
  function FirstIndex<T(==)>(s: seq<T>, x: T): (r: int)
    ensures -1 <= r < |s|
    ensures r == -1 <==> x !in s
    ensures 0 <= r ==> s[r] == x && x !in s[..r]
  {
    if |s| == 0 then -1
    else if s[0] == x then 0
    else
      var k := FirstIndex(s[1..], x);
      if k == -1 then -1 else k + 1
  }

  /** Looking up the id stored at position `i` finds a position no later than `i`;
      with repeated ids the lookup may land on an earlier duplicate. */
  lemma EntryFoundAtOrBefore<T>(s: seq<T>, i: int)
    requires 0 <= i < |s|
    ensures 0 <= FirstIndex(s, s[i]) <= i
  {
  }

  /** In a table with distinct ids the lookup of the id at position `i` is exactly `i`. */
  lemma DistinctEntryFoundAt<T>(s: seq<T>, i: int)
    requires NoDup(s)
    requires 0 <= i < |s|
    ensures FirstIndex(s, s[i]) == i
  {
  }
}
